=== FILE: README.md ===
# RxCache disk store — Dafny model

This project models `Disk`, the disk-backed persistence layer of RxCache
(`core/src/main/java/io/rx_cache/internal/Disk.java`). It stores each cache record as
one file named by its key. It reads records back through a two-pass decode that
recovers the value's shape: scalar, collection, array or map. It can encrypt the stored
bytes, evict one key or all of them, list the keys, and report the stored size in
megabytes.

The model is functional:

- **Directory** (`directory.dfy`): the cache directory is a value
  `Dir(listable, entries)`. `entries` maps each name to a plain `File(bytes)` or a
  `Folder`. Folders matter because `allKeys` skips them, `storedMB` counts their
  reported length, and `File.delete()` cannot remove a non-empty one.
  `listable = false` is a directory whose `listFiles()` returns null.
- **DiskStore** (`store.dfy`): `save`, `evict`, `evictAll`, `allKeys` and `storedMB`.
  A Java call that returns or throws, and leaves a directory behind, becomes an
  `Outcome(dir, calls, result)`. `calls` records the calls made on the file encryptor.
- **Shapes** (`shapes.dfy`): the type-name classification of `retrieveRecord`.
  Reflection is replaced by a closed `Registry` from class name to capabilities
  (`isCollection`, `isArray`, `isMap`). A name outside the registry is the
  `ClassNotFoundException` path.
- **Retrieval** (`retrieval.dfy`): `saveRecord`, `retrieveRecord` with its two decode
  passes, `retrieve`, and `retrieveCollection` / `retrieveMap` / `retrieveArray`. The
  JSON converter is a `Converter` of opaque partial functions returning `Option`. The
  file encryptor is an `Encryptor` of two opaque partial functions.
- **StoreProperties** and **RoundTrip** (`store_properties.dfy`, `round_trip.dfy`):
  lemmas that relate several operations. They cover overwrite, eviction, listing,
  size growth, the save/retrieve round trip, encryption transparency and unknown-type
  resilience.

Collaborators and I/O that are parameters rather than code:

- The JSON converter: `Converter.toJson`, `fromJson` and `recordFromJson`.
- The file encryptor: `Encryptor.encrypt` and `decrypt`. `decrypt` also chooses the
  working file's name.
- Whether a write fails: `WriteFault`, which is one of `NoFault`, `OpenFault` or
  `Interrupted(n)`.
- The run-time class test behind the checked casts of the typed conveniences:
  `instanceOf(value, bound)`, for the bounds `Collection`, `Map` and `Object[]`.
- The order in which a directory listing is visited. The loops of `EvictAll`,
  `AllKeys` and `StoredMB` pick the next entry nondeterministically.

In these places the code does something a reader might not expect; the model follows
the code:

- A resolved container class that is none of collection, array or map takes the
  scalar branch. It is not a decode failure (`Disk.java:226-229`).
- `evictAll` on a directory that cannot be listed throws a `NullPointerException`.
  It is not a no-op (`Disk.java:143`).
- In `retrieve`, a decryption failure escapes to the caller instead of giving null,
  because `decrypt` runs before the `try` (`Disk.java:158-159`).
- In `retrieveRecord`, a decryption failure deletes the stored entry itself. At that
  point `file` still names the key's own file when the `finally` block deletes it
  (`Disk.java:196-197`, `248-249`).
- `save` rethrows write and encryption failures as `RuntimeException`. An exception
  from the JSON encoding is thrown before the `try` and escapes unwrapped
  (`Disk.java:104`).

## Model

| member | source | states |
|---|---|---|
| Directory.Delete | core/src/main/java/io/rx_cache/internal/Disk.java:136-137 | `File.delete()` removes a plain file or an empty folder, leaves a missing name or a non-empty folder alone, and touches no other entry |
| Directory.TotalBytesRemove | core/src/main/java/io/rx_cache/internal/Disk.java:89-91 | the summed length of all entries does not depend on which entry the listing visits first |
| Directory.TotalBytesUpdate | core/src/main/java/io/rx_cache/internal/Disk.java:89-91 | overwriting or adding one entry changes the total by exactly the old and new lengths |
| DiskStore.Save | core/src/main/java/io/rx_cache/internal/Disk.java:103-130 | success exactly when encoding, opening, writing and (if asked) encrypting all succeed; the key then holds the whole new content (plain or encrypted); a failed open or a folder key changes nothing, an interrupted write leaves the bytes that reached the file, and a failed encryption leaves the plaintext; every other key is unchanged; encoding failure escapes as is and every later failure (folder key, open or write failure, failed encryption) is rethrown as a runtime failure; the encryptor is called on this key iff `isEncrypted` and the write went through |
| DiskStore.Evict | core/src/main/java/io/rx_cache/internal/Disk.java:135-138 | the key is removed unless it names a non-empty folder, which stays as it was; nothing else changes; evicting an absent key changes nothing |
| DiskStore.EvictAll | core/src/main/java/io/rx_cache/internal/Disk.java:142-146 | an unlistable directory throws and is left as it was; otherwise every plain file and empty folder is deleted, only non-empty folders remain, and no plain file is left |
| DiskStore.AllKeys | core/src/main/java/io/rx_cache/internal/Disk.java:64-77 | exactly the names of the plain files, each once; empty when the directory cannot be listed |
| DiskStore.MegabytesCeil | core/src/main/java/io/rx_cache/internal/Disk.java:93 | the least whole number of mebibytes that holds the given byte count |
| DiskStore.StoredMB | core/src/main/java/io/rx_cache/internal/Disk.java:83-95 | 0 when the directory cannot be listed; otherwise the rounded-up mebibytes of the summed length of every listed entry, folders included, saturating at `Integer.MAX_VALUE` |
| Shapes.Classify | core/src/main/java/io/rx_cache/internal/Disk.java:205-229 | an unresolvable data name, or a present but unresolvable container name, fails; an absent container is scalar; a collection container wins over array and array over map; a map also needs its key name resolved; a resolved container with no capability gives the scalar shape, not a failure |
| Shapes.ClassifyNamesOf | core/src/main/java/io/rx_cache/internal/Disk.java:205-229 | the names a registered shape is saved with classify back to that same shape |
| Shapes.ClassifyIsRegistered | core/src/main/java/io/rx_cache/internal/Disk.java:205-229 | every successful classification is a registered shape whose own names agree with the names read |
| Shapes.ClassifyTestOrder | core/src/main/java/io/rx_cache/internal/Disk.java:209-221 | the collection test comes before the array test, and the array test before the map test |
| Shapes.ClassifyKeyOnlyForMaps | core/src/main/java/io/rx_cache/internal/Disk.java:221-222 | an unresolvable key name makes the classification fail iff the container takes the map branch |
| Retrieval.SizeOnMb | core/src/main/java/io/rx_cache/internal/Disk.java:231 | the size figure times one mebibyte is the file's length |
| Retrieval.SaveRecord | core/src/main/java/io/rx_cache/internal/Disk.java:57-59 | succeeds exactly when encoding, writing and (if asked) encrypting the record all succeed; the key then holds its encoding (encrypted if asked); an encoding failure escapes as is and every later failure is a runtime failure; every other key and the directory's listability are left alone |
| Retrieval.DecodeRecord | core/src/main/java/io/rx_cache/internal/Disk.java:199-233 | null iff the envelope pass fails, the classification fails, or the typed pass for the classified shape fails; on success the typed pass's value and names, with the size taken from the content length and never from the payload |
| Retrieval.RetrieveRecord | core/src/main/java/io/rx_cache/internal/Disk.java:190-251 | never throws; decrypts iff asked; unencrypted it changes nothing; a decryption failure deletes the stored entry and gives null; a decrypted working file is decoded and then deleted, with nothing else changed |
| Retrieval.Retrieve | core/src/main/java/io/rx_cache/internal/Disk.java:154-183 | a decryption failure is thrown and changes nothing; otherwise returns the decode of the (decrypted) content, null on failure, and the working file is deleted on success and failure alike, with nothing else changed |
| Retrieval.RetrieveCollection | core/src/main/java/io/rx_cache/internal/Disk.java:284-307 | non-null exactly when the key is a readable file, its decode as the collection type parameterized by the element class succeeds, and the result passes the checked cast to `Collection`; then it is that decode |
| Retrieval.RetrieveMap | core/src/main/java/io/rx_cache/internal/Disk.java:315-338 | non-null exactly when the key is a readable file, its decode as the map type parameterized by key and value classes succeeds, and the result passes the checked cast to `Map`; then it is that decode |
| Retrieval.RetrieveArray | core/src/main/java/io/rx_cache/internal/Disk.java:344-367 | non-null exactly when the key is a readable file, its decode as the array class of the element succeeds, and the result passes the checked cast to `Object[]` (an array of a primitive class does not); then it is that decode |
| StoreProperties.MegabytesCeilExamples | core/src/main/java/io/rx_cache/internal/Disk.java:93-94 | 0 bytes is 0 MB, 1 byte is 1, one mebibyte is 1, one mebibyte plus a byte is 2 |
| StoreProperties.StoredFigureMonotone | core/src/main/java/io/rx_cache/internal/Disk.java:93-94 | more bytes never give a smaller `storedMB` figure |
| StoreProperties.SaveNewKeyGrowsTotal | core/src/main/java/io/rx_cache/internal/Disk.java:83-130 | saving a new key adds exactly its stored length to the total, so `storedMB` does not drop |
| StoreProperties.SaveOverwrites | core/src/main/java/io/rx_cache/internal/Disk.java:108-109 | a later save that opens the file leaves no trace of an earlier successful save of the same key |
| StoreProperties.EvictIdempotent | core/src/main/java/io/rx_cache/internal/Disk.java:135-138 | evicting twice is evicting once |
| StoreProperties.SaveThenEvict | core/src/main/java/io/rx_cache/internal/Disk.java:103-138 | evicting a key just saved removes it and restores every other entry |
| StoreProperties.SaveListsKey | core/src/main/java/io/rx_cache/internal/Disk.java:64-130 | a successful save adds its key to the plain-file names (what `allKeys` lists when the directory is listable) and nothing else |
| StoreProperties.ThreeSavesListThreeKeys | core/src/main/java/io/rx_cache/internal/Disk.java:64-130 | saving "a", "b", "c" into an empty directory leaves exactly those three plain-file names |
| StoreProperties.EvictAllEmptiesFiles | core/src/main/java/io/rx_cache/internal/Disk.java:142-146 | with no folders, nothing survives `evictAll` and the stored total is 0 |
| RoundTrip.DecodeSavedRecord | core/src/main/java/io/rx_cache/internal/Disk.java:199-233 | under the converter's round-trip law, the two-pass decode of a saved record gives it back with the size from the content |
| RoundTrip.SaveThenRetrieveRecord | core/src/main/java/io/rx_cache/internal/Disk.java:103-233 | `saveRecord` then unencrypted `retrieveRecord` returns the record with its shape, leaving the store unchanged |
| RoundTrip.EncryptedSaveThenRetrieveRecord | core/src/main/java/io/rx_cache/internal/Disk.java:103-251 | with an encryptor that inverts, the encrypted round trip returns the same record and leaves no working file: the store is exactly as saved |
| RoundTrip.SaveThenRetrieve | core/src/main/java/io/rx_cache/internal/Disk.java:103-183 | `save` then `retrieve` returns the value, encrypted or not, and leaves the store as saved |
| RoundTrip.UnknownDataTypeIsAbsent | core/src/main/java/io/rx_cache/internal/Disk.java:205-235 | a record whose data type name is unknown is reported absent, not thrown |
| RoundTrip.ConveniencesAreRetrieve | core/src/main/java/io/rx_cache/internal/Disk.java:284-367 | each typed convenience reads the key as the model's unencrypted `Retrieve` does with the target type it builds, which leaves the store alone, then applies its checked cast |

## Left out

- The real file system: readers, writers, closing them, and `printStackTrace`
  logging. A read can fail only because the name is not a plain file, or through the
  converter's own failure. A write can fail only through `WriteFault`, or because the key names a folder.
- The JSON encoding and decoding, and Gson's construction of parameterized types.
  They are opaque partial functions. A target type is a `TypeRef` value that records
  the arguments passed to `parameterizedTypeWithOwner`.
- The encryption algorithm. `encrypt` is assumed to rewrite the file in place, and to
  leave the plaintext there when it fails. A failed `decrypt` is assumed to leave no
  working file behind.
- Record metadata other than the three type names and `sizeOnMb`, such as timestamps
  and lifetime. `Disk` only passes it through the converter.
- Retrieval.SizeOnMb: the size is an exact real quotient. The model ignores the
  rounding of Java's `float` division.
- DiskStore.StoredMB: the model ignores overflow of the `long` byte counter. It also
  ignores the rounding of `double` for totals above 2^53 bytes. The saturating
  `(int)` cast is modelled.
- `getFileContent` (`Disk.java:252-277`): a private helper that nothing calls.
- A delete fails only on a non-empty folder. `File.delete()` also fails silently when
  permission is denied, or on Windows while a reader still holds the file open; `retrieve`
  deletes its working file before closing its reader (`Disk.java:166`, `173` before `177`),
  so there the working-file cleanup relies on a platform that allows deleting open files.
- The converter's two decode overloads, `fromJson(Reader, Class)` and
  `fromJson(Reader, Type)`, are modelled as one function over `TypeRef`. Java's `retrieve`
  takes a `Class`, so the model's `Retrieve` accepts target types it cannot be given.
- Keys are assumed to be plain file names: not empty, not `.` or `..`, with no path
  separator, and distinct as file names (no case folding). Java resolves
  `new File(cacheDirectory, key)` as a path, so other keys reach other files: the
  directory itself, its parent, or a file inside a sub-folder.
- Concurrency between callers. Each operation runs on one directory value.
- The file written by `save` is modelled as bytes. The default-charset encoding of
  the `FileWriter` is folded into the converter's output.

=== FILE: directory.dfy ===
/** The cache directory of the disk store, as an immutable value.

    Every cache entry is one entry directly inside the directory, named by its key.
    Entries are plain files (holding bytes) or sub-directories; the latter matter
    because listing, size accounting and deletion treat them differently. */
module Directory {
  import opened Wrappers

  newtype byte = x: int | 0 <= x < 256

  /** One directory entry. A folder carries the length its `File.length()` reports
      (file-system defined) and whether it has children, which makes deletion fail. */
  datatype Entry = File(bytes: seq<byte>) | Folder(nonEmpty: bool, reportedLength: nat)

  /** The store directory: `listable` is false when listing it yields null
      (missing or unreadable directory). */
  datatype Dir = Dir(listable: bool, entries: map<string, Entry>)

  /** The length `File.length()` reports for an entry. */
  function Length(e: Entry): nat {
    match e
    case File(b) => |b|
    case Folder(_, n) => n
  }

  /** `File.delete()` succeeds on a plain file and on an empty folder. */
  predicate Deletable(e: Entry) {
    e.File? || !e.nonEmpty
  }

  /** `a` and `b` hold the same entry under every name except possibly `name`. */
  ghost predicate AgreeExcept(a: map<string, Entry>, b: map<string, Entry>, name: string) {
    forall n :: n != name ==> (n in a <==> n in b) && (n in a ==> a[n] == b[n])
  }

  /** Opening `name` for reading: only a plain file can be read. */
  function ReadFile(d: Dir, name: string): (r: Option<seq<byte>>)
    ensures r.Some? <==> name in d.entries && d.entries[name].File?
    ensures r.Some? ==> d.entries[name] == File(r.value)
  {
    if name in d.entries && d.entries[name].File? then Some(d.entries[name].bytes) else None
  }

  /** Creates or overwrites the plain file `name` with `bytes`. */
  function WriteFile(d: Dir, name: string, bytes: seq<byte>): (r: Dir)
    ensures ReadFile(r, name) == Some(bytes)
    ensures AgreeExcept(r.entries, d.entries, name)
    ensures r.listable == d.listable
  {
    d.(entries := d.entries[name := File(bytes)])
  }

  /** `File.delete()` on `name`: removes a plain file or an empty folder, does nothing
      to a missing name or a non-empty folder, and never fails loudly. */
  function Delete(d: Dir, name: string): (r: Dir)
    ensures name in r.entries <==> name in d.entries && !Deletable(d.entries[name])
    ensures name in r.entries ==> r.entries[name] == d.entries[name]
    ensures AgreeExcept(r.entries, d.entries, name)
    ensures r.listable == d.listable
  {
    if name in d.entries && Deletable(d.entries[name]) then d.(entries := d.entries - {name}) else d
  }

  /** Names of the plain files directly inside the directory. */
  function PlainFileNames(d: Dir): (names: set<string>)
    ensures forall n :: n in names <==> n in d.entries && d.entries[n].File?
  {
    set n | n in d.entries && d.entries[n].File?
  }

  /** An arbitrary name of a non-empty map: the order in which a listing visits entries
      is file-system defined. */
  ghost function Pick(m: map<string, Entry>): (k: string)
    requires m != map[]
    ensures k in m
  {
    var k :| k in m; k
  }

  /** Sum of the lengths of every entry of `m`. */
  ghost function TotalBytes(m: map<string, Entry>): nat
    decreases |m|
  {
    if m == map[] then 0
    else
      var k := Pick(m);
      Length(m[k]) + TotalBytes(m - {k})
  }

  /** The total does not depend on which entry is visited first. */
  lemma {:induction false} TotalBytesRemove(m: map<string, Entry>, k: string)
    requires k in m
    ensures TotalBytes(m) == Length(m[k]) + TotalBytes(m - {k})
    decreases |m|
  {
    var j := Pick(m);
    if j != k {
      assert m - {j} - {k} == m - {k} - {j};
      TotalBytesRemove(m - {j}, k);
      TotalBytesRemove(m - {k}, j);
    }
  }

  /** Replacing (or adding) the entry under `k` changes the total by the difference. */
  lemma TotalBytesUpdate(m: map<string, Entry>, k: string, e: Entry)
    ensures TotalBytes(m[k := e]) == Length(e) + TotalBytes(m - {k})
    ensures k in m ==> TotalBytes(m) == Length(m[k]) + TotalBytes(m - {k})
    ensures k !in m ==> TotalBytes(m) == TotalBytes(m - {k})
  {
    TotalBytesRemove(m[k := e], k);
    assert m[k := e] - {k} == m - {k};
    if k in m {
      TotalBytesRemove(m, k);
    } else {
      assert m - {k} == m;
    }
  }
}

=== FILE: retrieval.dfy ===
/** The reading side of the disk store (`Disk.java`): `saveRecord`, the two-pass record
    decode of `retrieveRecord`, the plain `retrieve`, and the typed conveniences
    `retrieveCollection`, `retrieveMap` and `retrieveArray`. Every retrieval reports a
    failure as an absent value; only `retrieve` lets a decryption failure escape. */
module Retrieval {
  import opened Wrappers
  import opened Directory
  import opened DiskStore
  import opened Shapes

  /** A cache record: the value, the type names it is saved with, and `sizeOnMb`. */
  datatype Record<T> = Record(data: T, names: TypeNames, sizeOnMb: real)

  /** The JSON converter, an opaque partial codec: encoding a record, decoding a value of
      a requested type, and decoding a record of a requested type. */
  datatype Converter<!T> = Converter(
    toJson: Record<T> -> Option<seq<byte>>,
    fromJson: (seq<byte>, TypeRef) -> Option<T>,
    recordFromJson: (seq<byte>, TypeRef) -> Option<Record<T>>)

  /** The size figure set on a retrieved record: `length / 1024 / 1024`. */
  function SizeOnMb(bytes: seq<byte>): (mb: real)
    ensures mb * (MiB as real) == |bytes| as real
  {
    |bytes| as real / (MiB as real)
  }

  /** `saveRecord`: `save` of the record itself. */
  function SaveRecord<T>(d: Dir, key: string, record: Record<T>, conv: Converter<T>,
                         enc: Encryptor, isEncrypted: bool, encryptKey: string, fault: WriteFault): (r: Outcome<()>)
    ensures r.result.Success? ==>
              conv.toJson(record).Some?
              && ReadFile(r.dir, key) == StoredBytes(enc, isEncrypted, encryptKey, conv.toJson(record).value)
    ensures AgreeExcept(r.dir.entries, d.entries, key)
    ensures r.dir.listable == d.listable
    ensures r.result.Success? <==>
              conv.toJson(record).Some? && fault.NoFault? && !(key in d.entries && d.entries[key].Folder?)
              && StoredBytes(enc, isEncrypted, encryptKey, conv.toJson(record).value).Some?
    ensures conv.toJson(record).None? ==> r.result == Failure(ConverterFailure)
    ensures conv.toJson(record).Some? && r.result.Failure? ==> r.result == Failure(RuntimeFailure)
  {
    Save(d, key, record, conv.toJson, enc, isEncrypted, encryptKey, fault)
  }

  /** The envelope pass: the stored content read as a bare record, for its type names. */
  function EnvelopeNames<T>(conv: Converter<T>, content: seq<byte>): Option<TypeNames> {
    match conv.recordFromJson(content, Class(RecordClass))
    case None => None
    case Some(rec) => Some(rec.names)
  }

  /** The two-pass decode of `retrieveRecord` over one file's content: read the type
      names, classify them, decode again as the fully parameterized record type, and
      overwrite `sizeOnMb` from the content's length. Any failure gives `None`. */
  function DecodeRecord<T>(reg: Registry, conv: Converter<T>, content: seq<byte>): (r: Option<Record<T>>)
    // null whenever the envelope pass fails, a name does not resolve as its branch
    // needs, or the typed pass fails
    ensures EnvelopeNames(conv, content).None? ==> r.None?
    ensures EnvelopeNames(conv, content).Some? && Classify(reg, EnvelopeNames(conv, content).value).None? ==> r.None?
    ensures r.Some? <==>
              EnvelopeNames(conv, content).Some?
              && Classify(reg, EnvelopeNames(conv, content).value).Some?
              && conv.recordFromJson(content, RecordTarget(Classify(reg, EnvelopeNames(conv, content).value).value)).Some?
    // on success: the typed pass's value and names, with the size taken from the
    // content and never from the payload
    ensures r.Some? ==>
              var typed := conv.recordFromJson(content, RecordTarget(Classify(reg, EnvelopeNames(conv, content).value).value)).value;
              r.value.data == typed.data && r.value.names == typed.names
              && r.value.sizeOnMb * (MiB as real) == |content| as real
  {
    match EnvelopeNames(conv, content)
    case None => None
    case Some(names) =>
      match Classify(reg, names)
      case None => None
      case Some(shape) =>
        match conv.recordFromJson(content, RecordTarget(shape))
        case None => None
        case Some(rec) => Some(rec.(sizeOnMb := SizeOnMb(content)))
  }

  /** Opens `file` and runs the two-pass decode on it; a missing or unreadable file gives `None`. */
  function ReadRecord<T>(d: Dir, reg: Registry, conv: Converter<T>, file: string): (r: Option<Record<T>>)
    ensures ReadFile(d, file).None? ==> r.None?
    ensures ReadFile(d, file).Some? ==> r == DecodeRecord(reg, conv, ReadFile(d, file).value)
  {
    match ReadFile(d, file)
    case None => None
    case Some(content) => DecodeRecord(reg, conv, content)
  }

  /** The directory with the working file `w` added, as `decrypt` leaves it. */
  function WithWorkingFile(d: Dir, w: Decrypted): Dir {
    WriteFile(d, w.file, w.plain)
  }

  /** `retrieveRecord`: decrypts (when asked) into a working file, decodes it in two
      passes, and deletes whatever file it read from when encryption is on, on every
      exit. Nothing is ever thrown. */
  function RetrieveRecord<T>(d: Dir, reg: Registry, conv: Converter<T>, enc: Encryptor,
                             key: string, isEncrypted: bool, encryptKey: string): (r: Outcome<Option<Record<T>>>)
    ensures r.result.Success?
    ensures r.calls == (if isEncrypted then [DecryptCall(encryptKey, key)] else [])
    // without encryption nothing changes and the key's own content is decoded
    ensures !isEncrypted ==> r.dir == d && r.result.value == ReadRecord(d, reg, conv, key)
    // a failed decryption still deletes the file the call started from: the stored record
    ensures isEncrypted && enc.decrypt(encryptKey, key, ReadFile(d, key)).None? ==>
              r.dir == Delete(d, key) && r.result.value.None?
    // a decrypted working file is decoded and then removed; nothing else changes
    ensures isEncrypted && enc.decrypt(encryptKey, key, ReadFile(d, key)).Some? ==>
              var w := enc.decrypt(encryptKey, key, ReadFile(d, key)).value;
              w.file !in r.dir.entries && AgreeExcept(r.dir.entries, d.entries, w.file)
              && r.result.value == DecodeRecord(reg, conv, w.plain)
    ensures r.dir.listable == d.listable
  {
    if !isEncrypted then
      Outcome(d, [], Success(ReadRecord(d, reg, conv, key)))
    else
      var calls := [DecryptCall(encryptKey, key)];
      match enc.decrypt(encryptKey, key, ReadFile(d, key))
      case None =>
        // `file` still names the stored entry when the `finally` block deletes it
        Outcome(Delete(d, key), calls, Success(None))
      case Some(w) =>
        var d1 := WithWorkingFile(d, w);
        Outcome(Delete(d1, w.file), calls, Success(ReadRecord(d1, reg, conv, w.file)))
  }

  /** Opens `file` and decodes it once as `target`; any failure gives `None`. */
  function ReadValue<T>(d: Dir, conv: Converter<T>, file: string, target: TypeRef): (r: Option<T>)
    ensures ReadFile(d, file).None? ==> r.None?
    ensures r.Some? ==> conv.fromJson(ReadFile(d, file).value, target) == r
    ensures ReadFile(d, file).Some? && conv.fromJson(ReadFile(d, file).value, target).Some? ==> r.Some?
  {
    match ReadFile(d, file)
    case None => None
    case Some(content) => conv.fromJson(content, target)
  }

  /** `retrieve`: decrypts (when asked) outside the `try`, so a decryption failure is
      thrown; otherwise decodes as `clazz`, null on failure, and deletes the working
      file on success and on failure alike. */
  function Retrieve<T>(d: Dir, conv: Converter<T>, enc: Encryptor, key: string, clazz: TypeRef,
                       isEncrypted: bool, encryptKey: string): (r: Outcome<Option<T>>)
    ensures r.calls == (if isEncrypted then [DecryptCall(encryptKey, key)] else [])
    ensures !isEncrypted ==> r.dir == d && r.result == Success(ReadValue(d, conv, key, clazz))
    // the decryption failure escapes and the directory is left as it was
    ensures r.result.Failure? <==> isEncrypted && enc.decrypt(encryptKey, key, ReadFile(d, key)).None?
    ensures r.result.Failure? ==> r.result.error == DecryptFailure && r.dir == d
    // a working file never outlives the call, whatever the decode did
    ensures isEncrypted && enc.decrypt(encryptKey, key, ReadFile(d, key)).Some? ==>
              var w := enc.decrypt(encryptKey, key, ReadFile(d, key)).value;
              w.file !in r.dir.entries && AgreeExcept(r.dir.entries, d.entries, w.file)
              && r.result == Success(conv.fromJson(w.plain, clazz))
  {
    if !isEncrypted then
      Outcome(d, [], Success(ReadValue(d, conv, key, clazz)))
    else
      var calls := [DecryptCall(encryptKey, key)];
      match enc.decrypt(encryptKey, key, ReadFile(d, key))
      case None => Outcome(d, calls, Failure(DecryptFailure))
      case Some(w) =>
        var d1 := WithWorkingFile(d, w);
        var data := ReadValue(d1, conv, w.file, clazz);
        // deleted inside the `try` on success, and again in `finally` on every path
        var d2 := if data.Some? then Delete(d1, w.file) else d1;
        Outcome(Delete(d2, w.file), calls, Success(data))
  }

  /** The erased bound a convenience's result is cast to before it is returned: the
      casts `(C)`, `(M)` and `(T[])` check against `Collection`, `Map` and `Object[]`. */
  datatype CastBound = CollectionBound | MapBound | ObjectArrayBound

  /** A checked cast inside the `try`: null passes, a value of the bound passes, and any
      other value throws `ClassCastException`, which the `catch` turns into null. The
      run-time class test is `instanceOf`. */
  function CheckedCast<T>(v: Option<T>, instanceOf: (T, CastBound) -> bool, bound: CastBound): (r: Option<T>)
    ensures r.Some? <==> v.Some? && instanceOf(v.value, bound)
    ensures r.Some? ==> r == v
  {
    match v
    case None => None
    case Some(x) => if instanceOf(x, bound) then v else None
  }

  /** `retrieveCollection`: decodes the key's file as `classCollection<classData>` and
      casts the result to a collection. */
  function RetrieveCollection<T>(d: Dir, conv: Converter<T>, instanceOf: (T, CastBound) -> bool, key: string,
                                 classCollection: string, classData: string): (r: Option<T>)
    ensures r.Some? <==>
              && ReadFile(d, key).Some?
              && var v := conv.fromJson(ReadFile(d, key).value, Parameterized(classCollection, [Class(classData)]));
                 v.Some? && instanceOf(v.value, CollectionBound)
    ensures r.Some? ==> r == conv.fromJson(ReadFile(d, key).value, Parameterized(classCollection, [Class(classData)]))
  {
    CheckedCast(ReadValue(d, conv, key, Parameterized(classCollection, [Class(classData)])), instanceOf, CollectionBound)
  }

  /** `retrieveMap`: decodes the key's file as `classMap<classMapKey, classMapValue>` and
      casts the result to a map; a decoded value that is not a `Map` gives null. */
  function RetrieveMap<T>(d: Dir, conv: Converter<T>, instanceOf: (T, CastBound) -> bool, key: string,
                          classMap: string, classMapKey: string, classMapValue: string): (r: Option<T>)
    ensures r.Some? <==>
              && ReadFile(d, key).Some?
              && var v := conv.fromJson(ReadFile(d, key).value, Parameterized(classMap, [Class(classMapKey), Class(classMapValue)]));
                 v.Some? && instanceOf(v.value, MapBound)
    ensures r.Some? ==> r == conv.fromJson(ReadFile(d, key).value, Parameterized(classMap, [Class(classMapKey), Class(classMapValue)]))
  {
    CheckedCast(ReadValue(d, conv, key, Parameterized(classMap, [Class(classMapKey), Class(classMapValue)])), instanceOf, MapBound)
  }

  /** `retrieveArray`: decodes the key's file as the array class of `classData` and casts
      the result to an object array; an array of a primitive class gives null here. */
  function RetrieveArray<T>(d: Dir, conv: Converter<T>, instanceOf: (T, CastBound) -> bool, key: string,
                            classData: string): (r: Option<T>)
    ensures r.Some? <==>
              && ReadFile(d, key).Some?
              && var v := conv.fromJson(ReadFile(d, key).value, ArrayClass(classData));
                 v.Some? && instanceOf(v.value, ObjectArrayBound)
    ensures r.Some? ==> r == conv.fromJson(ReadFile(d, key).value, ArrayClass(classData))
  {
    CheckedCast(ReadValue(d, conv, key, ArrayClass(classData)), instanceOf, ObjectArrayBound)
  }
}

=== FILE: round_trip.dfy ===
/** Saving and then retrieving: the record round trip through the two-pass decode,
    encryption transparency, and resilience to unknown type names. */
module RoundTrip {
  import opened Wrappers
  import opened Directory
  import opened DiskStore
  import opened Shapes
  import opened Retrieval

  /** What the converter must do for `record`, saved with the names of the registered
      shape `s`, to come back: it encodes, the envelope pass reads the names back, and
      the typed pass for `s` reads the value and names back. */
  ghost predicate RecordCodecLaw<T>(reg: Registry, conv: Converter<T>, record: Record<T>, s: Shape) {
    && Registered(reg, s)
    && record.names == NamesOf(s)
    && conv.toJson(record).Some?
    && EnvelopeNames(conv, conv.toJson(record).value) == Some(record.names)
    && var typed := conv.recordFromJson(conv.toJson(record).value, RecordTarget(s));
       typed.Some? && typed.value.data == record.data && typed.value.names == record.names
  }

  /** The decode of saved content gives back the record, with its size replaced by the
      content's length. */
  lemma DecodeSavedRecord<T>(reg: Registry, conv: Converter<T>, record: Record<T>, s: Shape)
    requires RecordCodecLaw(reg, conv, record, s)
    ensures var json := conv.toJson(record).value;
            DecodeRecord(reg, conv, json) == Some(record.(sizeOnMb := SizeOnMb(json)))
  {
  }

  /** `saveRecord` then `retrieveRecord`, without encryption: the record comes back with
      the shape it was saved with, and the retrieval leaves the store as it was. */
  lemma SaveThenRetrieveRecord<T>(d: Dir, key: string, reg: Registry, conv: Converter<T>,
                                  enc: Encryptor, record: Record<T>, s: Shape, encryptKey: string)
    requires RecordCodecLaw(reg, conv, record, s)
    requires !(key in d.entries && d.entries[key].Folder?)
    ensures var saved := SaveRecord(d, key, record, conv, enc, false, encryptKey, NoFault);
            var json := conv.toJson(record).value;
            && saved.result.Success?
            && RetrieveRecord(saved.dir, reg, conv, enc, key, false, encryptKey)
                 == Outcome(saved.dir, [], Success(Some(record.(sizeOnMb := SizeOnMb(json)))))
  {
  }

  /** The encryptor round-trips `plain` stored under `key`: decrypting the ciphertext
      yields a fresh working file holding the plaintext. */
  predicate DecryptInverts(enc: Encryptor, d: Dir, key: string, encryptKey: string, plain: seq<byte>) {
    && enc.encrypt(encryptKey, plain).Some?
    && var w := enc.decrypt(encryptKey, key, Some(enc.encrypt(encryptKey, plain).value));
       w.Some? && w.value.plain == plain && w.value.file != key && w.value.file !in d.entries
  }

  /** `saveRecord` then `retrieveRecord` with encryption gives the same record as without,
      and no decrypted working file is left behind: the store is exactly as saved. */
  lemma EncryptedSaveThenRetrieveRecord<T>(d: Dir, key: string, reg: Registry, conv: Converter<T>,
                                           enc: Encryptor, record: Record<T>, s: Shape, encryptKey: string)
    requires RecordCodecLaw(reg, conv, record, s)
    requires !(key in d.entries && d.entries[key].Folder?)
    requires DecryptInverts(enc, d, key, encryptKey, conv.toJson(record).value)
    ensures var saved := SaveRecord(d, key, record, conv, enc, true, encryptKey, NoFault);
            var json := conv.toJson(record).value;
            && saved.result.Success?
            && RetrieveRecord(saved.dir, reg, conv, enc, key, true, encryptKey)
                 == Outcome(saved.dir, [DecryptCall(encryptKey, key)], Success(Some(record.(sizeOnMb := SizeOnMb(json)))))
  {
  }

  /** `save` then `retrieve` as a type the converter decodes the saved value as: the
      value comes back whether or not it was encrypted, and no working file remains. */
  lemma SaveThenRetrieve<T>(d: Dir, key: string, data: T, toJson: T -> Option<seq<byte>>,
                            conv: Converter<T>, enc: Encryptor, clazz: TypeRef,
                            isEncrypted: bool, encryptKey: string)
    requires !(key in d.entries && d.entries[key].Folder?)
    requires toJson(data).Some? && conv.fromJson(toJson(data).value, clazz) == Some(data)
    requires isEncrypted ==> DecryptInverts(enc, d, key, encryptKey, toJson(data).value)
    ensures var saved := Save(d, key, data, toJson, enc, isEncrypted, encryptKey, NoFault);
            var back := Retrieve(saved.dir, conv, enc, key, clazz, isEncrypted, encryptKey);
            saved.result.Success? && back.result == Success(Some(data)) && back.dir == saved.dir
  {
  }

  /** A stored record whose data type name the registry does not know is reported
      absent, never thrown. */
  lemma UnknownDataTypeIsAbsent<T>(d: Dir, reg: Registry, conv: Converter<T>, enc: Encryptor,
                                   key: string, encryptKey: string)
    requires ReadFile(d, key).Some?
    requires var names := EnvelopeNames(conv, ReadFile(d, key).value);
             names.Some? && Resolve(reg, names.value.data).None?
    ensures RetrieveRecord(d, reg, conv, enc, key, false, encryptKey) == Outcome(d, [], Success(None))
  {
  }

  /** The typed conveniences read the key exactly like an unencrypted `retrieve` of the
      corresponding parameterized type, followed by their checked cast. */
  lemma ConveniencesAreRetrieve<T>(d: Dir, conv: Converter<T>, instanceOf: (T, CastBound) -> bool, enc: Encryptor,
                                   key: string, container: string, keyClass: string, data: string, encryptKey: string)
    ensures var plain := Retrieve(d, conv, enc, key, Parameterized(container, [Class(data)]), false, encryptKey);
            plain.dir == d && plain.calls == []
            && RetrieveCollection(d, conv, instanceOf, key, container, data)
                 == CheckedCast(plain.result.value, instanceOf, CollectionBound)
    ensures var plain := Retrieve(d, conv, enc, key, Parameterized(container, [Class(keyClass), Class(data)]), false, encryptKey);
            plain.dir == d && plain.calls == []
            && RetrieveMap(d, conv, instanceOf, key, container, keyClass, data)
                 == CheckedCast(plain.result.value, instanceOf, MapBound)
    ensures var plain := Retrieve(d, conv, enc, key, ArrayClass(data), false, encryptKey);
            plain.dir == d && plain.calls == []
            && RetrieveArray(d, conv, instanceOf, key, data) == CheckedCast(plain.result.value, instanceOf, ObjectArrayBound)
  {
  }
}

=== FILE: shapes.dfy ===
/** Classification of a stored record's type names into the decode shape that
    `retrieveRecord` picks. Java reflection (`Class.forName`, `isAssignableFrom`,
    `isArray`) is replaced by a closed registry from type name to capabilities. */
module Shapes {
  import opened Wrappers

  /** What reflection would report of a resolved class: is it a `Collection`, an array
      type, a `Map`. The flags are independent; the classification tests them in order. */
  datatype TypeInfo = TypeInfo(isCollection: bool, isArray: bool, isMap: bool)

  /** The loadable classes by name; a name outside it is `ClassNotFoundException`. */
  type Registry = map<string, TypeInfo>

  /** `Object.class`, which stands in for an absent container name. */
  const ObjectInfo := TypeInfo(false, false, false)

  /** The three type names a stored record carries; each may be null. */
  datatype TypeNames = TypeNames(data: Option<string>, container: Option<string>, key: Option<string>)

  /** The decode branch chosen, with the names it uses. `data` is the element class in
      the container shapes and the value class of a map. */
  datatype Shape =
    | Scalar(data: string)
    | CollectionOf(container: string, data: string)
    | ArrayOf(container: string, data: string)
    | MapOf(container: string, key: string, data: string)

  /** A type handed to the JSON converter: a class, or a parameterized type built by
      `parameterizedTypeWithOwner(null, raw, args...)`, or the array class of an element. */
  datatype TypeRef =
    | Class(name: string)
    | Parameterized(raw: string, args: seq<TypeRef>)
    | ArrayClass(element: string)

  /** The name of the record class itself. */
  const RecordClass := "io.rx_cache.internal.Record"

  /** `Class.forName(name)`: fails on a null name and on an unknown one. */
  function Resolve(reg: Registry, name: Option<string>): (r: Option<TypeInfo>)
    ensures r.Some? <==> name.Some? && name.value in reg
    ensures r.Some? ==> r.value == reg[name.value]
  {
    match name
    case None => None
    case Some(n) => if n in reg then Some(reg[n]) else None
  }

  /** The container's capabilities: `Object` when the name is absent, else resolved. */
  function ContainerInfo(reg: Registry, container: Option<string>): (r: Option<TypeInfo>)
    ensures container.None? ==> r == Some(ObjectInfo)
    ensures container.Some? ==> r == Resolve(reg, container)
  {
    if container.None? then Some(ObjectInfo) else Resolve(reg, container)
  }

  /** The classification of `retrieveRecord`: resolve the data class, then the container
      class, then test collection, array and map in that order; anything else, including
      an absent container, takes the scalar branch. A map also needs its key class. */
  function Classify(reg: Registry, names: TypeNames): (r: Option<Shape>)
    // the data class must resolve, and is the shape's data class
    ensures r.Some? ==> names.data.Some? && names.data.value in reg && r.value.data == names.data.value
    ensures Resolve(reg, names.data).None? ==> r.None?
    // an absent container name means the scalar branch
    ensures names.data.Some? && names.data.value in reg && names.container.None? ==>
              r == Some(Scalar(names.data.value))
    // a named container must resolve
    ensures names.container.Some? && names.container.value !in reg ==> r.None?
    // a container shape carries the container's name and that container's capability,
    // with collection tested before array and array before map
    ensures r.Some? && !r.value.Scalar? ==>
              names.container == Some(r.value.container) && r.value.container in reg
    ensures r.Some? && r.value.CollectionOf? ==> reg[r.value.container].isCollection
    ensures r.Some? && r.value.ArrayOf? ==>
              !reg[r.value.container].isCollection && reg[r.value.container].isArray
    ensures r.Some? && r.value.MapOf? ==>
              var info := reg[r.value.container];
              !info.isCollection && !info.isArray && info.isMap
              && names.key == Some(r.value.key) && r.value.key in reg
    // a resolved container with none of the capabilities falls through to scalar
    ensures r.Some? && r.value.Scalar? && names.container.Some? ==>
              var info := reg[names.container.value];
              !info.isCollection && !info.isArray && !info.isMap
    ensures names.data.Some? && names.data.value in reg
            && names.container.Some? && names.container.value in reg ==>
              var info := reg[names.container.value];
              !info.isCollection && !info.isArray && !info.isMap ==> r == Some(Scalar(names.data.value))
  {
    match Resolve(reg, names.data)
    case None => None
    case Some(_) =>
      var data := names.data.value;
      match ContainerInfo(reg, names.container)
      case None => None
      case Some(info) =>
        if info.isCollection then Some(CollectionOf(names.container.value, data))
        else if info.isArray then Some(ArrayOf(names.container.value, data))
        else if info.isMap then
          match Resolve(reg, names.key)
          case None => None
          case Some(_) => Some(MapOf(names.container.value, names.key.value, data))
        else Some(Scalar(data))
  }

  /** The target type of the typed decode pass for each branch. The array branch
      parameterizes the record by the array class alone. */
  function RecordTarget(s: Shape): TypeRef {
    match s
    case Scalar(d) => Parameterized(RecordClass, [Class(d)])
    case CollectionOf(c, d) =>
      Parameterized(RecordClass, [Parameterized(c, [Class(d)]), Class(d)])
    case ArrayOf(c, _) => Parameterized(RecordClass, [Class(c)])
    case MapOf(c, k, d) =>
      Parameterized(RecordClass, [Parameterized(c, [Class(k), Class(d)]), Class(d)])
  }

  /** The type names a record of shape `s` is saved with. */
  function NamesOf(s: Shape): TypeNames {
    match s
    case Scalar(d) => TypeNames(Some(d), None, None)
    case CollectionOf(c, d) => TypeNames(Some(d), Some(c), None)
    case ArrayOf(c, d) => TypeNames(Some(d), Some(c), None)
    case MapOf(c, k, d) => TypeNames(Some(d), Some(c), Some(k))
  }

  /** A shape the registry agrees with: every name it uses resolves, and the container's
      first capability in test order is the shape's own. */
  predicate Registered(reg: Registry, s: Shape) {
    && s.data in reg
    && match s
       case Scalar(_) => true
       case CollectionOf(c, _) => c in reg && reg[c].isCollection
       case ArrayOf(c, _) => c in reg && !reg[c].isCollection && reg[c].isArray
       case MapOf(c, k, _) =>
         c in reg && k in reg && !reg[c].isCollection && !reg[c].isArray && reg[c].isMap
  }

  /** Classifying the names a registered shape is saved with gives back that shape. */
  lemma ClassifyNamesOf(reg: Registry, s: Shape)
    requires Registered(reg, s)
    ensures Classify(reg, NamesOf(s)) == Some(s)
  {
  }

  /** Conversely, a successful classification yields a registered shape, and the names
      that shape is saved with agree with the classified ones on every name the branch
      reads. */
  lemma ClassifyIsRegistered(reg: Registry, names: TypeNames)
    requires Classify(reg, names).Some?
    ensures Registered(reg, Classify(reg, names).value)
    ensures var s := Classify(reg, names).value;
            NamesOf(s).data == names.data
            && (!s.Scalar? ==> NamesOf(s).container == names.container)
            && (s.MapOf? ==> NamesOf(s).key == names.key)
  {
  }

  /** A collection capability wins over the array and map capabilities, and an array
      capability over the map one. */
  lemma ClassifyTestOrder(reg: Registry, d: string, c: string, k: Option<string>)
    requires d in reg && c in reg
    ensures reg[c].isCollection ==> Classify(reg, TypeNames(Some(d), Some(c), k)) == Some(CollectionOf(c, d))
    ensures !reg[c].isCollection && reg[c].isArray ==>
              Classify(reg, TypeNames(Some(d), Some(c), k)) == Some(ArrayOf(c, d))
  {
  }

  /** Only the map branch reads the key name: outside it an unknown key name is harmless,
      inside it it makes the classification fail. */
  lemma ClassifyKeyOnlyForMaps(reg: Registry, d: string, c: string, k: Option<string>)
    requires d in reg && c in reg && Resolve(reg, k).None?
    ensures reg[c].isMap && !reg[c].isCollection && !reg[c].isArray <==>
              Classify(reg, TypeNames(Some(d), Some(c), k)).None?
  {
  }
}

=== FILE: store.dfy ===
/** The keyed side of the disk store (`Disk.java`): saving, evicting, listing and size
    accounting. The JSON converter and the file encryptor are collaborators passed in as
    functions; a failing write is a `WriteFault` parameter. */
module DiskStore {
  import opened Wrappers
  import opened Directory

  /** One mebibyte: the divisor of both size figures. */
  const MiB: nat := 1048576

  /** `Integer.MAX_VALUE`, where Java's `(int)` cast of a large double saturates. */
  const JavaIntMax: nat := 0x7fff_ffff

  /** What a call throws. `ConverterFailure` escapes `save` unwrapped (the JSON encoding
      runs before the `try`); `RuntimeFailure` is the `RuntimeException` that `save` wraps
      write and encryption failures in; `DecryptFailure` escapes `retrieve`;
      `NullListing` is the `NullPointerException` of `evictAll` on an unlistable directory. */
  datatype Thrown = ConverterFailure | RuntimeFailure | DecryptFailure | NullListing

  /** A call on the file encryptor, recorded so that whether it happened can be stated. */
  datatype EncryptorCall = EncryptCall(encryptKey: string, file: string) | DecryptCall(encryptKey: string, file: string)

  /** The result of one store operation: the directory afterwards, the encryptor calls
      made, and the returned value or the thrown failure. */
  datatype Outcome<R> = Outcome(dir: Dir, calls: seq<EncryptorCall>, result: Result<R, Thrown>)

  /** The working file `decrypt` produces: its name and its plaintext. */
  datatype Decrypted = Decrypted(file: string, plain: seq<byte>)

  /** The file encryptor. `encrypt` turns a file's content into ciphertext in place, or
      fails; `decrypt` receives the key, the file name and that file's content (absent
      when it is no readable file) and yields a working file, or fails. */
  datatype Encryptor = Encryptor(
    encrypt: (string, seq<byte>) -> Option<seq<byte>>,
    decrypt: (string, string, Option<seq<byte>>) -> Option<Decrypted>)

  /** How writing the file goes: fine, the writer cannot be opened (missing directory,
      no permission), or it fails after `written` bytes reached the file. */
  datatype WriteFault = NoFault | OpenFault | Interrupted(written: nat)

  function Min(a: nat, b: nat): (m: nat)
    ensures m <= a && m <= b
    ensures m == a || m == b
  {
    if a <= b then a else b
  }

  /** The bytes `save` leaves under the key when it succeeds. */
  function StoredBytes(enc: Encryptor, isEncrypted: bool, encryptKey: string, json: seq<byte>): Option<seq<byte>> {
    if isEncrypted then enc.encrypt(encryptKey, json) else Some(json)
  }

  /** `save`: encodes `data`, writes it under `key` replacing any previous content
      (append is off), then encrypts that file when `isEncrypted`. */
  function Save<D>(d: Dir, key: string, data: D, toJson: D -> Option<seq<byte>>,
                   enc: Encryptor, isEncrypted: bool, encryptKey: string, fault: WriteFault): (r: Outcome<()>)
    // every other entry, and the directory itself, is left alone on every path
    ensures AgreeExcept(r.dir.entries, d.entries, key) && r.dir.listable == d.listable
    // success exactly when nothing failed; the key then holds the whole new content
    ensures r.result.Success? <==>
              toJson(data).Some? && fault.NoFault? && !(key in d.entries && d.entries[key].Folder?)
              && StoredBytes(enc, isEncrypted, encryptKey, toJson(data).value).Some?
    ensures r.result.Success? ==>
              ReadFile(r.dir, key) == StoredBytes(enc, isEncrypted, encryptKey, toJson(data).value)
    // failures are never swallowed: an encoding failure escapes as is, every other one
    // is rethrown as a runtime exception
    ensures toJson(data).None? ==> r.result == Failure(ConverterFailure) && r.dir == d
    ensures toJson(data).Some? && !fault.NoFault? ==> r.result == Failure(RuntimeFailure)
    ensures r.result.Failure? ==> r.result.error in {ConverterFailure, RuntimeFailure}
    ensures toJson(data).Some? && r.result.Failure? ==> r.result == Failure(RuntimeFailure)
    // what a failed save leaves under the key: nothing changes when the writer cannot be
    // opened, an interrupted write leaves what reached the file, and a failed encryption
    // leaves the plaintext just written
    ensures toJson(data).Some? && (fault.OpenFault? || (key in d.entries && d.entries[key].Folder?)) ==> r.dir == d
    ensures toJson(data).Some? && fault.Interrupted? && !(key in d.entries && d.entries[key].Folder?) ==>
              ReadFile(r.dir, key) == Some(toJson(data).value[..Min(fault.written, |toJson(data).value|)])
    ensures toJson(data).Some? && fault.NoFault? && !(key in d.entries && d.entries[key].Folder?)
            && isEncrypted && enc.encrypt(encryptKey, toJson(data).value).None? ==>
              ReadFile(r.dir, key) == Some(toJson(data).value)
    // the encryptor is called, on this key's file, exactly when encryption is asked for
    // and the plaintext reached the file
    ensures r.calls == [] || r.calls == [EncryptCall(encryptKey, key)]
    ensures r.calls != [] <==>
              isEncrypted && toJson(data).Some? && fault.NoFault? && !(key in d.entries && d.entries[key].Folder?)
  {
    match toJson(data)
    case None => Outcome(d, [], Failure(ConverterFailure))
    case Some(json) =>
      if fault.OpenFault? || (key in d.entries && d.entries[key].Folder?) then
        Outcome(d, [], Failure(RuntimeFailure))
      else if fault.Interrupted? then
        Outcome(WriteFile(d, key, json[..Min(fault.written, |json|)]), [], Failure(RuntimeFailure))
      else
        var written := WriteFile(d, key, json);
        if !isEncrypted then Outcome(written, [], Success(()))
        else
          var calls := [EncryptCall(encryptKey, key)];
          match enc.encrypt(encryptKey, json)
          case None => Outcome(written, calls, Failure(RuntimeFailure))
          case Some(cipher) => Outcome(WriteFile(written, key, cipher), calls, Success(()))
  }

  /** `evict`: deletes the entry named `key`, a no-op when there is none. */
  function Evict(d: Dir, key: string): (r: Dir)
    ensures ReadFile(r, key).None?
    // the key is gone unless it names a non-empty folder, which stays as it was
    ensures key in r.entries <==> key in d.entries && !Deletable(d.entries[key])
    ensures key in r.entries ==> r.entries[key] == d.entries[key]
    ensures AgreeExcept(r.entries, d.entries, key) && r.listable == d.listable
    ensures key !in d.entries ==> r == d
  {
    Delete(d, key)
  }

  /** What `evictAll` leaves behind: only the entries `File.delete()` refuses to remove. */
  function Survivors(m: map<string, Entry>): (s: map<string, Entry>)
    ensures forall n :: n in s <==> n in m && !Deletable(m[n])
    ensures forall n :: n in s ==> s[n] == m[n]
  {
    map n | n in m && !Deletable(m[n]) :: m[n]
  }

  /** `evictAll`: deletes every listed entry one by one, in listing order. The listing is
      iterated without a null check, so an unlistable directory throws. */
  method EvictAll(d: Dir) returns (r: Outcome<()>)
    ensures r.calls == []
    ensures r.result.Failure? <==> !d.listable
    ensures !d.listable ==> r.result == Failure(NullListing) && r.dir == d
    ensures d.listable ==> r.dir == Dir(d.listable, Survivors(d.entries))
    ensures d.listable ==> PlainFileNames(r.dir) == {}
  {
    if !d.listable {
      return Outcome(d, [], Failure(NullListing));
    }
    var st := d;
    var rest := d.entries.Keys;
    while rest != {}
      invariant st.listable == d.listable
      invariant rest <= d.entries.Keys
      invariant forall n :: n in st.entries <==> n in d.entries && (n in rest || !Deletable(d.entries[n]))
      invariant forall n :: n in st.entries ==> st.entries[n] == d.entries[n]
      decreases rest
    {
      var k :| k in rest;
      st := Evict(st, k);
      rest := rest - {k};
    }
    assert st.entries == Survivors(d.entries);
    return Outcome(st, [], Success(()));
  }

  /** `allKeys`: the names of the plain files directly inside the directory, each once,
      in listing order; empty when the directory cannot be listed. */
  method AllKeys(d: Dir) returns (names: seq<string>)
    ensures !d.listable ==> names == []
    ensures d.listable ==> forall n :: n in names <==> n in PlainFileNames(d)
    ensures forall i, j :: 0 <= i < j < |names| ==> names[i] != names[j]
  {
    names := [];
    if !d.listable {
      return;
    }
    var rest := d.entries.Keys;
    while rest != {}
      invariant rest <= d.entries.Keys
      invariant forall n :: n in names <==> n in d.entries && n !in rest && d.entries[n].File?
      invariant forall i, j :: 0 <= i < j < |names| ==> names[i] != names[j]
      decreases rest
    {
      var k :| k in rest;
      if d.entries[k].File? {
        names := names + [k];
      }
      rest := rest - {k};
    }
  }

  /** Whole mebibytes needed to hold `bytes`, rounded up: `Math.ceil(bytes / 1024.0 / 1024.0)`. */
  function MegabytesCeil(bytes: nat): (mb: nat)
    ensures mb * MiB >= bytes
    ensures mb > 0 ==> (mb - 1) * MiB < bytes
  {
    (bytes + MiB - 1) / MiB
  }

  /** Java's `(int)` cast of a non-negative double: saturates at `Integer.MAX_VALUE`. */
  function JavaIntCast(x: nat): (i: nat)
    ensures i <= JavaIntMax
    ensures x <= JavaIntMax ==> i == x
    ensures x > JavaIntMax ==> i == JavaIntMax
  {
    if x > JavaIntMax then JavaIntMax else x
  }

  /** `storedMB`: the total length of every listed entry, in mebibytes rounded up; 0 when
      the directory cannot be listed. */
  method StoredMB(d: Dir) returns (mb: nat)
    ensures !d.listable ==> mb == 0
    ensures d.listable ==> mb == JavaIntCast(MegabytesCeil(TotalBytes(d.entries)))
  {
    if !d.listable {
      return 0;
    }
    var bytes := 0;
    var rest := d.entries;
    while rest != map[]
      invariant bytes + TotalBytes(rest) == TotalBytes(d.entries)
      decreases |rest|
    {
      var k :| k in rest;
      TotalBytesRemove(rest, k);
      bytes := bytes + Length(rest[k]);
      rest := rest - {k};
    }
    mb := JavaIntCast(MegabytesCeil(bytes));
  }
}

=== FILE: store_properties.dfy ===
/** Properties relating several store operations: overwrite, eviction, listing and size. */
module StoreProperties {
  import opened Wrappers
  import opened Directory
  import opened DiskStore

  /** The rounding of `storedMB` on the boundary cases: nothing is 0, one byte is 1,
      exactly one mebibyte is 1, one byte more is 2. */
  lemma MegabytesCeilExamples()
    ensures MegabytesCeil(0) == 0
    ensures MegabytesCeil(1) == 1
    ensures MegabytesCeil(MiB) == 1
    ensures MegabytesCeil(MiB + 1) == 2
  {
  }

  /** Rounding up and the saturating cast both preserve order. */
  lemma StoredFigureMonotone(a: nat, b: nat)
    requires a <= b
    ensures JavaIntCast(MegabytesCeil(a)) <= JavaIntCast(MegabytesCeil(b))
  {
  }

  /** A successful save of a key that was not there adds exactly the stored length to
      the directory's total, so the `storedMB` figure never drops. */
  lemma SaveNewKeyGrowsTotal<D>(d: Dir, key: string, data: D, toJson: D -> Option<seq<byte>>,
                                enc: Encryptor, isEncrypted: bool, encryptKey: string, fault: WriteFault)
    requires key !in d.entries
    requires Save(d, key, data, toJson, enc, isEncrypted, encryptKey, fault).result.Success?
    ensures var after := Save(d, key, data, toJson, enc, isEncrypted, encryptKey, fault).dir;
            && TotalBytes(after.entries) == TotalBytes(d.entries) + |ReadFile(after, key).value|
            && JavaIntCast(MegabytesCeil(TotalBytes(d.entries))) <= JavaIntCast(MegabytesCeil(TotalBytes(after.entries)))
  {
    var after := Save(d, key, data, toJson, enc, isEncrypted, encryptKey, fault).dir;
    var stored := ReadFile(after, key).value;
    assert after.entries == d.entries[key := File(stored)];
    TotalBytesUpdate(d.entries, key, File(stored));
    assert d.entries - {key} == d.entries;
    StoredFigureMonotone(TotalBytes(d.entries), TotalBytes(after.entries));
  }

  /** A save that succeeds fully replaces the key: a later save that gets as far as
      opening the file gives exactly what it would have given without the first one. */
  lemma SaveOverwrites<D, E>(d: Dir, key: string,
                             data1: D, toJson1: D -> Option<seq<byte>>, enc1: Encryptor, isEncrypted1: bool, encryptKey1: string,
                             data2: E, toJson2: E -> Option<seq<byte>>, enc2: Encryptor, isEncrypted2: bool, encryptKey2: string,
                             fault2: WriteFault)
    requires Save(d, key, data1, toJson1, enc1, isEncrypted1, encryptKey1, NoFault).result.Success?
    requires toJson2(data2).Some? && !fault2.OpenFault?
    ensures var first := Save(d, key, data1, toJson1, enc1, isEncrypted1, encryptKey1, NoFault).dir;
            Save(first, key, data2, toJson2, enc2, isEncrypted2, encryptKey2, fault2)
              == Save(d, key, data2, toJson2, enc2, isEncrypted2, encryptKey2, fault2)
  {
    var first := Save(d, key, data1, toJson1, enc1, isEncrypted1, encryptKey1, NoFault).dir;
    var stored := ReadFile(first, key).value;
    assert first == d.(entries := d.entries[key := File(stored)]);
    var json := toJson2(data2).value;
    if fault2.Interrupted? {
      var prefix := json[..Min(fault2.written, |json|)];
      assert WriteFile(first, key, prefix) == WriteFile(d, key, prefix);
    } else {
      assert WriteFile(first, key, json) == WriteFile(d, key, json);
    }
  }

  /** Evicting twice is evicting once. */
  lemma EvictIdempotent(d: Dir, key: string)
    ensures Evict(Evict(d, key), key) == Evict(d, key)
  {
  }

  /** Evicting a key just saved removes it and restores every other entry. */
  lemma SaveThenEvict<D>(d: Dir, key: string, data: D, toJson: D -> Option<seq<byte>>,
                         enc: Encryptor, isEncrypted: bool, encryptKey: string)
    requires Save(d, key, data, toJson, enc, isEncrypted, encryptKey, NoFault).result.Success?
    ensures Evict(Save(d, key, data, toJson, enc, isEncrypted, encryptKey, NoFault).dir, key)
              == d.(entries := d.entries - {key})
  {
  }

  /** A successful save adds its key to the listed keys and nothing else. */
  lemma SaveListsKey<D>(d: Dir, key: string, data: D, toJson: D -> Option<seq<byte>>,
                        enc: Encryptor, isEncrypted: bool, encryptKey: string, fault: WriteFault)
    requires Save(d, key, data, toJson, enc, isEncrypted, encryptKey, fault).result.Success?
    ensures PlainFileNames(Save(d, key, data, toJson, enc, isEncrypted, encryptKey, fault).dir)
              == PlainFileNames(d) + {key}
  {
  }

  /** Saving "a", "b" and "c" into an empty directory lists exactly those keys. */
  lemma ThreeSavesListThreeKeys<D>(d: Dir, data: D, toJson: D -> Option<seq<byte>>, enc: Encryptor)
    requires d.entries == map[]
    requires toJson(data).Some?
    ensures var s1 := Save(d, "a", data, toJson, enc, false, "", NoFault);
            var s2 := Save(s1.dir, "b", data, toJson, enc, false, "", NoFault);
            var s3 := Save(s2.dir, "c", data, toJson, enc, false, "", NoFault);
            s3.result.Success? && PlainFileNames(s3.dir) == {"a", "b", "c"}
  {
  }

  /** After `evictAll` only non-empty folders remain, so a directory without folders
      weighs nothing. */
  lemma EvictAllEmptiesFiles(m: map<string, Entry>)
    requires forall n :: n in m ==> m[n].File?
    ensures Survivors(m) == map[] && TotalBytes(Survivors(m)) == 0
  {
  }
}

=== FILE: wrappers.dfy ===
/** Wrappers used throughout the model: `Option` stands for a Java reference that may
    be null, `Result` for a call that either returns or throws. */
module Wrappers {

  /** A value that may be absent (Java `null`). */
  datatype Option<+T> = None | Some(value: T)

  /** The outcome of a call that either returns a value or throws an error. */
  datatype Result<+R, +E> = Success(value: R) | Failure(error: E)
}
